=== FILE: README.md ===
# Smart router core, modelled in Dafny

This project models the decision and bookkeeping core of a request router for
a code assistant (a VS Code extension). The core decides whether an incoming
request keeps the model it asked for or is diverted to the fast model
`claude-3.5`. It also keeps per-model latency statistics and manages the
access token the extension uses. The model has four parts:

- **Routing** (`Router`, `router.dfy`). `routeRequest` keeps the requested
  model for non-Pro users and for Pro users with fast requests left. Otherwise
  it asks the classifier, and a non-critical request goes to the fast model.
  Every exception inside the decision gives back the requested model.
  `checkModelLatency` picks the model with the lowest mean latency, and on a
  tie the first one wins.
- **Operation classifier** (`Patterns`, `Classifier`). A request is
  non-critical exactly when one of six fixed regular expressions matches its
  code snippet. Each expression is written out as a predicate with JavaScript
  regular-expression semantics. A snippet whose string conversion throws takes
  the catch branch, which fails closed to "critical". The `codeContext` field
  is passed through.
- **Metrics collector** (`Metrics`). Each model has a FIFO buffer of at most
  100 latency samples. A query answers the mean, or Infinity (`None`) for a
  model with no samples. `recordRouting` only logs.
- **Token manager** (`TokenStore`, `TokenManager`).
  - `saveToken` prepends to a rotation list of at most three entries and makes
    the new entry the active token.
  - `getToken` uses the active token when it is still usable. Otherwise it
    searches the secure store, then the configuration files in order, then the
    environment, and then asks the service for a new token. The first token
    that validates wins and is saved.
  - `rotateToken` promotes the newest saved entry that validates.
  - The refresh tick renews a token that expires within 30 minutes, and
    start/stop manage the refresh timer.

The outside world is given as parameters:
- the detector's answers (`Outcome<bool>`, `Outcome<int>`);
- the file system (a map from path to parsed content: unreadable, a JSON
  object, or a list of saved tokens);
- the secure store and the two token environment variables (fields of `World`);
- the host (home directory, APPDATA, extension context, whether reading the
  secure store rejects, whether the rotation file is writable);
- token validation, the service-issued token and the current time (`Oracle`).

Everything is a pure function over immutable datatypes.

## Behaviour worth noting

- The router has no policy table, token counts or category priorities. It
  uses a boolean `isCritical` and a hard-coded fast model.
- The classifier's catch branch makes a request critical, so an unreadable
  snippet keeps the requested model.
- `getToken` never takes a token from the rotation list; only `rotateToken`
  does. When the service rejects the newest entry and accepts the second,
  `rotateToken` promotes the second (`RotationSkipsRejectedEntry`). It checks
  no expiry, so an expired entry that the service still accepts is
  re-activated, and `getToken`'s fast path keeps skipping it
  (`RotationReactivatesExpiredHead`). The list's file,
  `~/.cursor/tokens.json`, is read as one of the searched configuration
  paths, and again by every `saveToken`. But it holds a bare JSON array,
  which has neither a `token` nor a `tokens` field, so discovery never takes
  a token from it (`RotationFileOffersNothing`).
- When reading the secure store rejects, `getToken`'s outer catch answers
  undefined. The configuration files, the environment and the service are
  then never tried, even when one of them holds a token that validates
  (`SecretReadFailureBlocksDiscovery`).
- `startTokenRefresh` treats an empty token like an absent one. An active
  token `""` that validates is returned by `getToken`, and no timer is armed
  (`EmptyTokenArmsNoTimer`).
- A rotation file that cannot be parsed makes `rotateToken` answer undefined.
  It does not fall back to discovery.
- The refresh tick never reaches its "fall back to rotation" branch, because
  every call inside it catches its own errors (apart from logging, which is
  left out as output only). A tick that gets no new token
  changes nothing.

## Model

| member | source | states |
|---|---|---|
| Common.OrElse | src/core/token-manager.ts:143 | `a \|\| b` on optional strings: the result is truthy exactly when one of the operands is, and `a` wins when it is truthy |
| Patterns.Test | src/core/classifier.ts:6-11 | `RegExp.prototype.test` of each of the six expressions, flag-less: `^` and `$` anchor at the ends of the whole input, `.` excludes the four line terminators, `\s` is JavaScript's white-space set and `\w` is `[A-Za-z0-9_]`; a match needs at least the pattern's shortest text (2, 2, 4, 8, 19 and 2 characters) |
| Patterns.UndefinedMatchesNothing | src/core/classifier.ts:5-12 | none of the six patterns matches the text "undefined", which `RegExp.test` uses for an absent snippet |
| Patterns.NoPatternMatchesPlainLetters | src/core/classifier.ts:5-12 | a string made only of the letters u, n, d, e, f, i matches no pattern, since each pattern needs `/`, `=`, `.`, `p`, `<` or a CJK keyword |
| Patterns.SampleMatches | src/core/classifier.ts:6-8 | a trailing `//` comment, `x = 1` and `console.log` match their patterns; a `//` comment followed by a further line does not, because `$` anchors at the end of the whole input |
| Patterns.CommentOnLastLine | src/core/classifier.ts:6 | a `//` comment on the last line matches even after earlier lines |
| Patterns.ImportSamples | src/core/classifier.ts:9 | `import` followed by white space and a name matches; `import` followed only by one space does not, since the list class needs a character after the `\s+` |
| Patterns.SummarySample | src/core/classifier.ts:10 | a one-line `<summary>a</summary>` matches |
| Patterns.KeywordSample | src/core/classifier.ts:11 | a text containing the keyword for "format" matches |
| Classifier.SnippetText | src/core/classifier.ts:21 | the text `RegExp.test` sees: the snippet itself, or "undefined" for an absent snippet |
| Classifier.AnyMatch | src/core/classifier.ts:20-22 | `patterns.some(test)` is true exactly when some pattern in the list matches the text |
| Classifier.Classify | src/core/classifier.ts:5-36 | with the fixed list of six patterns, the context is passed through, an absent or unconvertible snippet is critical, and otherwise a request is critical exactly when none of the six patterns matches |
| Classifier.ClassifyWith | src/core/classifier.ts:18-36 | the verdict is critical exactly when no pattern matches the snippet's text; when the conversion throws, the verdict is critical; the context equals `codeContext` in both branches |
| Classifier.OneMatchSuffices | src/core/classifier.ts:20-22 | one matching pattern makes the request non-critical whatever the other patterns do |
| Classifier.OrderIrrelevant | src/core/classifier.ts:20-22 | two pattern lists with the same members (any order, any repetition) give the same verdict |
| Classifier.Deterministic | src/core/classifier.ts:5-12 | requests with the same snippet and context get the same verdict; no pattern keeps state between calls |
| Classifier.SampleVerdicts | src/core/classifier.ts:18-36 | the fixed list classifies `x = 1` as non-critical, and a snippet whose conversion throws as critical with its context kept |
| Metrics.RecordLatency | src/utils/metrics.ts:13-23 | the model's buffer gains the sample at its end, and its oldest sample is dropped exactly when the buffer was already full; other models' buffers are unchanged; an unseen model starts empty; buffers stay between 1 and 100 samples long |
| Metrics.RecordIsWindow | src/utils/metrics.ts:19-23 | for a buffer within capacity, one recording keeps the newest 100 samples of the extended history |
| Metrics.HistoryWindow | src/utils/metrics.ts:13-23 | after any run of recordings, a model's buffer is exactly the newest 100 samples of its whole history, in order (FIFO eviction) |
| Metrics.RecordAllOthersUnchanged | src/utils/metrics.ts:14-19 | recordings for one model never change another model's buffer |
| Metrics.Samples | src/utils/metrics.ts:14-32 | a model never recorded has no samples; a recorded model's samples are its buffer, between 1 and 100 long in a well-formed store |
| Metrics.Sum | src/utils/metrics.ts:34 | `samples.reduce((a, b) => a + b)`: a single sample is its own sum |
| Metrics.SumAppend | src/utils/metrics.ts:34 | the left fold of `+` can be split anywhere: the sum of a concatenation is the sum of the parts' sums |
| Metrics.Mean | src/utils/metrics.ts:34 | the mean times the number of samples is their sum |
| Metrics.LatencyOf | src/utils/metrics.ts:32-37 | a model with no samples reports Infinity, and otherwise the value whose product with the sample count is the sample sum |
| Metrics.ModelLatencies | src/utils/metrics.ts:28-41 | the answer has an entry for every requested model and no other, each entry being that model's mean or Infinity |
| Metrics.MeanWithinSamples | src/utils/metrics.ts:34 | a reported mean lies between the smallest and the largest sample bound |
| Metrics.RecordRouting | src/utils/metrics.ts:43-50 | recording a routing decision changes no model's latency samples |
| Router.Route | src/core/router.ts:23-56 | non-Pro users and Pro users with fast requests left keep their model, and the classifier is not consulted; otherwise the request is classified, a routing record is emitted, and the result is the requested model for critical requests and `claude-3.5` for non-critical ones; an exception at any step yields the requested model; the result is always one of the two |
| Router.RoutedAwayIff | src/core/router.ts:23-56 | a request is diverted exactly when the user is Pro, no fast requests remain, nothing throws, some non-critical pattern matches the snippet, and the requested model is not already the fast model |
| Router.FastestIndex | src/core/router.ts:60-62 | the reduce ends on an index no other model is faster than, with every earlier model strictly slower |
| Router.FirstFastestUnique | src/core/router.ts:60-62 | only one index is the first of the fastest, so the reduce's choice is fixed by the latencies |
| Router.CheckModelLatency | src/core/router.ts:58-63 | an empty list fails; otherwise the answer is a member of the list whose latency is at most every other member's, and on a tie it is the earliest such model |
| Router.Faster | src/core/router.ts:61 | the `<` on latencies with Infinity as `None`: Infinity is never faster, any finite mean beats Infinity, nothing is faster than itself, and two means compare as numbers |
| Router.TieGoesToFirst | src/core/router.ts:60-62 | with equal latencies everywhere (for instance all Infinity) the first model is chosen |
| TokenStore.NonEmpty | src/core/token-manager.ts:44 | `.filter(Boolean)` keeps exactly the non-empty entries, and no others |
| TokenStore.NonEmptyAppend | src/core/token-manager.ts:44 | filtering distributes over concatenation and keeps a single entry exactly when it is non-empty, which fixes the order and multiplicity of the kept entries |
| TokenStore.RotationPath | src/core/token-manager.ts:89 | the rotation file is `<home>/.cursor/tokens.json` for a non-empty home, and never an empty path |
| TokenStore.ListedPaths | src/core/token-manager.ts:36-43 | the six listed paths: five non-empty home-directory paths, one of them the rotation file, and an APPDATA entry that is empty unless APPDATA is set |
| TokenStore.StoragePaths | src/core/token-manager.ts:35-44 | no searched path is empty |
| TokenStore.StoragePathsShape | src/core/token-manager.ts:35-44 | the searched paths are the listed ones in order; the APPDATA path is present (as the fourth) exactly when APPDATA is set, and the rotation file is always searched |
| TokenStore.Push | src/core/token-manager.ts:103-107 | the new list has the new entry first, at most three entries, and as its tail the previous list's first two (or fewer) entries in the same order |
| TokenStore.ReadRotation | src/core/token-manager.ts:96-104 | `saveToken` starts from an empty list when the rotation file is missing and from its entries when it holds a list; any other content makes reading or prepending throw |
| TokenStore.SaveToken | src/core/token-manager.ts:74-114 | the secure store receives the token whenever a context exists; when the list is read and written, the active token becomes the new entry expiring 24 hours after `now` with the given source, and only the rotation file changes; when reading, parsing or writing fails, neither the file nor the active token changes |
| TokenStore.SavePreservesRotationInvariant | src/core/token-manager.ts:104-107 | a save made no earlier than the previous one keeps the rotation file at most three entries long and newest first |
| TokenStore.RotationInvariantAfterSaves | src/core/token-manager.ts:104-107 | after any number of saves made in time order, the rotation file holds at most three entries, newest first |
| TokenManager.FileToken | src/core/token-manager.ts:140-150 | a missing or unreadable file offers nothing; a JSON object offers its `token` when that is truthy and otherwise `tokens[0].token`; a list file offers nothing |
| TokenManager.ActiveUsable | src/core/token-manager.ts:120-124 | the fast path needs an active token that has not expired and that validates; an expired token is never used even if it would validate |
| TokenManager.Found | src/core/token-manager.ts:132-165 | a discovered token is returned after being saved: when the save completes it is the active token with its source and a 24-hour expiry, and otherwise the active token is unchanged |
| TokenManager.GetToken | src/core/token-manager.ts:117-172 | an unexpired active token that validates is returned with nothing changed; otherwise, unless reading the secure store rejects (undefined), the first validating candidate (secure store, configuration files in order, environment) is saved and returned, and failing that the service's token; the refresh timer is untouched |
| TokenManager.Discover | src/core/token-manager.ts:127-172 | a failed discovery changes nothing, and a rejecting secure-store read always fails it |
| TokenManager.Search | src/core/token-manager.ts:127-135 | a token the local search returns has validated |
| TokenManager.FromFiles | src/core/token-manager.ts:137-152 | a token found in the configuration files or the environment has validated |
| TokenManager.EnvToken | src/core/token-manager.ts:155 | `CURSOR_TOKEN` when it is non-empty, otherwise `CURSOR_API_TOKEN`; the result is non-empty exactly when one of the two is |
| TokenManager.FromEnvironment | src/core/token-manager.ts:154-159 | an environment token is used only if it validates |
| TokenManager.FromService | src/core/token-manager.ts:161-168 | the service's token is saved with source "api" and returned without validation; with no token, the answer is undefined and nothing changes |
| Common.FirstWhere | src/core/token-manager.ts:247-252 | the index found is the first element accepted: it is accepted and every earlier one is not; with no index, no element is accepted |
| TokenManager.FirstValid | src/core/token-manager.ts:127-159 | the chosen candidate validates and every earlier candidate does not; with no choice, no candidate validates |
| TokenManager.PickCons | src/core/token-manager.ts:144-147 | a candidate ahead of the rest is taken when it validates, and otherwise the rest decide |
| TokenManager.FromFilesIsFirstValid | src/core/token-manager.ts:137-159 | the file loop followed by the environment step picks the first validating candidate among the files (in path order) and the environment |
| TokenManager.SearchIsFirstValid | src/core/token-manager.ts:127-159 | the local search picks the first validating candidate in the order secure store, configuration files, environment |
| TokenManager.DiscoveryIsFirstValid | src/core/token-manager.ts:127-172 | unless reading the secure store rejects, discovery saves and returns the first validating candidate, and asks the service only when there is none |
| TokenManager.GetTokenNoneIff | src/core/token-manager.ts:117-172 | `getToken` answers undefined exactly when the active token is unusable and either reading the secure store rejects, or no candidate validates and the service issues nothing; then nothing changes |
| TokenManager.SecretReadFailureBlocksDiscovery | src/core/token-manager.ts:127-172 | when reading the secure store rejects, `getToken` answers undefined even though a searched configuration file holds a token that validates |
| TokenManager.ServiceTokenTrustedUnchecked | src/core/token-manager.ts:161-166 | when nothing validates and the secure store can be read, the service's token is saved and returned even if it would not validate |
| TokenManager.RotationFileOffersNothing | src/core/token-manager.ts:138-143 | the rotation file, although searched, never supplies a discovery candidate |
| TokenManager.FirstValidEntry | src/core/token-manager.ts:247-252 | the chosen saved entry validates and every newer entry does not |
| TokenManager.RotateToken | src/core/token-manager.ts:239-261 | the newest saved entry that validates becomes the active token as saved, and the file is not rewritten; with no such entry, or no file, `getToken` runs; an unreadable file answers undefined and changes nothing |
| TokenManager.RotationSkipsRejectedEntry | src/core/token-manager.ts:246-252 | with the newest entry rejected and the second accepted, rotation returns and activates the second |
| TokenManager.RotationReactivatesExpiredHead | src/core/token-manager.ts:239-252 | an expired active token heading the list that the service still accepts is re-activated by rotation, and stays unusable on `getToken`'s fast path |
| TokenManager.NeedsRefresh | src/core/token-manager.ts:199 | a tick is due when an active token exists and expires less than 30 minutes after now; an already-expired token counts, and none is due without an active token |
| TokenManager.RefreshTick | src/core/token-manager.ts:196-211 | a tick acts only when an active token expires within 30 minutes and the service issues a token; it then exports the token as `CURSOR_API_TOKEN` and stores it in the secure store, and when the save completes the token is active and at the head of the rotation list with source "refresh", no longer due for refresh; a failed save leaves the active token and the files unchanged; otherwise nothing changes |
| TokenManager.RefreshedTokenIsFresh | src/core/token-manager.ts:199 | a refreshed token expires a day later and is not refreshed again until half an hour before that |
| TokenManager.ClearHeld | src/core/token-manager.ts:178-180 | clearing the held timer leaves no live timer when at most the held one was live |
| TokenManager.StopTokenRefresh | src/core/token-manager.ts:231-236 | stopping leaves no held timer and no live timer, and changes nothing else |
| TokenManager.StopIdempotent | src/core/token-manager.ts:231-236 | stopping twice is the same as stopping once |
| TokenManager.StartTokenRefresh | src/core/token-manager.ts:176-228 | starting keeps at most one live timer, the held one; with an undefined or empty token it returns early, leaving no live timer; with a non-empty token, exactly one new timer is live |
| TokenManager.EmptyTokenArmsNoTimer | src/core/token-manager.ts:117-187 | an active token `""` that validates is returned by `getToken`, and starting then arms no timer |

## Left out

- The user-state detector (src/core/detector.ts) is not part of this model. Its two answers enter `Router.Route` as parameters. The detector itself fails open to `false` and `0`.
- Router.Route: a `request` that is itself null or undefined is not modelled; reading `request.model` on it would throw inside the catch.
- Router: the slow-model latency table (src/core/router.ts:9-12) is left out, because no code reads it.
- Logging (src/utils/logger.ts) is left out as output only. A logging call that throws inside `routeRequest` is the `reportThrows` parameter.
- Metrics: latencies are integers and means are exact rationals. JavaScript's floating-point sum and division, NaN, and Infinity as a number are not modelled; Infinity is `None`.
- Patterns: characters are Unicode scalar values, while JavaScript strings are UTF-16 code units. The two agree on the Basic Multilingual Plane, which is where all the pattern characters lie. Only the `toString` conversion of a snippet is modelled, as the text it yields or as a throw.
- TokenStore.Join: `path.join` normalisation (`..`, repeated separators, Windows separators) is not modelled. Paths are opaque keys joined with `/`.
- TokenStore.FileContent: a file is unreadable or unparsable, a JSON object, or a list of saved tokens. The JSON syntax, `fs.existsSync` and directory creation are not modelled. A failed write leaves the file unchanged, because partial writes are not modelled.
- TokenManager.RotateToken: a rotation file holding a JSON string, number, boolean or null, or a list with an entry that is not a saved-token object, has no form in `FileContent`. In the source a string is iterated character by character, validating `undefined` for each and then falling back to `getToken`; `null` or a `null` entry throws and answers undefined. For discovery such files offer nothing, like an unreadable file, and `saveToken` on a list with odd entries would keep them.
- TokenStore.SaveToken: a failing `secrets.store` call is not modelled. The secure store is always written when a context exists.
- TokenManager: validation, the service's token and the time are fixed for one top-level call. So in `StartTokenRefresh` the second `getToken` (reached through `rotateToken`) sees the same service answer as the first.
- TokenManager.RefreshTick: the catch branch that calls `rotateToken` is not modelled, because nothing inside the tick's `try` can throw apart from the logging calls, which are left out as output only.
- TokenManager.StartTokenRefresh: the timer firing later is not modelled. A tick is `RefreshTick`, applied by the caller. Interleaving between ticks and concurrent `getToken` calls is also not modelled.
- The authentication webview (src/core/auth-manager.ts), the axios configuration (src/config/api.ts), the unused model tables (src/config/models.ts, src/types/models.ts), the extension entry points (src/extension.ts, src/main.ts) and packaging (scripts/package.js) are not part of this model. The login handler only delegates to `saveToken`.

=== FILE: classifier.dfy ===
/** The operation classifier: a request is non-critical exactly when one of the
    non-critical patterns matches its code snippet. */
module Classifier {
  import opened Common
  import opened Patterns

  /** The `codeSnippet` field of a request as `RegExp.prototype.test` sees it:
      a value whose string conversion is `s`, an absent field (converted to the
      text "undefined"), or a value whose conversion throws. */
  datatype Snippet = Text(s: string) | Undefined | Unconvertible

  /** The fields of a routing request the core reads. `codeContext` is opaque
      and only passed through. */
  datatype Request = Request(model: string, codeSnippet: Snippet, codeContext: Option<string>)

  datatype Verdict = Verdict(isCritical: bool, context: Option<string>)

  /** The text a regular expression tests for a snippet that converts. */
  function SnippetText(snippet: Snippet): (r: string)
    requires !snippet.Unconvertible?
    ensures snippet.Text? ==> r == snippet.s
    ensures snippet.Undefined? ==> r == "undefined"
  {
    match snippet
    case Text(s) => s
    case Undefined => "undefined"
  }

  /** `patterns.some(p => p.test(text))`, scanning left to right and stopping at
      the first match. */
  function AnyMatch(patterns: seq<Pattern>, text: string): (b: bool)
    ensures b <==> exists i | 0 <= i < |patterns| :: Test(patterns[i], text)
  {
    if |patterns| == 0 then false
    else if Test(patterns[0], text) then true
    else
      assert forall i | 1 <= i < |patterns| :: patterns[i] == patterns[1..][i - 1];
      AnyMatch(patterns[1..], text)
  }

  /** `OperationClassifier.classify` over an arbitrary pattern list. A snippet
      whose conversion throws reaches the catch branch, which fails closed. */
  function ClassifyWith(patterns: seq<Pattern>, request: Request): (v: Verdict)
    ensures v.context == request.codeContext
    ensures request.codeSnippet.Unconvertible? ==> v.isCritical
    ensures !request.codeSnippet.Unconvertible? ==>
      (v.isCritical <==> forall p | p in patterns :: !Test(p, SnippetText(request.codeSnippet)))
  {
    match request.codeSnippet
    case Unconvertible => Verdict(true, request.codeContext)
    case _ => Verdict(!AnyMatch(patterns, SnippetText(request.codeSnippet)), request.codeContext)
  }

  /** The classifier with the source's fixed pattern list. An absent snippet
      matches none of its patterns, so it is critical. */
  function Classify(request: Request): (v: Verdict)
    ensures v.context == request.codeContext
    ensures request.codeSnippet.Unconvertible? || request.codeSnippet.Undefined? ==> v.isCritical
    ensures !request.codeSnippet.Unconvertible? ==>
      (v.isCritical <==> forall p | p in NonCriticalPatterns :: !Test(p, SnippetText(request.codeSnippet)))
  {
    UndefinedMatchesNothing();
    ClassifyWith(NonCriticalPatterns, request)
  }

  /** One matching pattern makes the request non-critical, whatever the other
      patterns say. */
  lemma OneMatchSuffices(patterns: seq<Pattern>, request: Request, p: Pattern)
    requires !request.codeSnippet.Unconvertible?
    requires p in patterns && Test(p, SnippetText(request.codeSnippet))
    ensures !ClassifyWith(patterns, request).isCritical
  {
  }

  /** Reordering (or duplicating) the patterns does not change the verdict: it
      depends only on which patterns are in the list. */
  lemma {:induction false} OrderIrrelevant(ps: seq<Pattern>, qs: seq<Pattern>, request: Request)
    requires (set p | p in ps) == (set q | q in qs)
    ensures ClassifyWith(ps, request) == ClassifyWith(qs, request)
  {
    if !request.codeSnippet.Unconvertible? {
      var inPs := set p | p in ps;
      var inQs := set q | q in qs;
      forall p | p in ps ensures p in qs {
        assert p in inPs;
        assert p in inQs;
      }
      forall q | q in qs ensures q in ps {
        assert q in inQs;
        assert q in inPs;
      }
    }
  }

  /** The verdict depends on nothing but the snippet's text and the context:
      equal requests give equal verdicts, because no pattern keeps state
      between calls (none has the global flag). */
  lemma Deterministic(r1: Request, r2: Request)
    requires r1.codeSnippet == r2.codeSnippet && r1.codeContext == r2.codeContext
    ensures Classify(r1) == Classify(r2)
  {
  }

  /** The fixed list classifies a plain assignment as non-critical and a
      snippet whose conversion throws as critical, keeping the context. */
  lemma SampleVerdicts(context: Option<string>)
    ensures !Classify(Request("m", Text("x = 1"), context)).isCritical
    ensures Classify(Request("m", Unconvertible, context)) == Verdict(true, context)
  {
    SampleMatches();
    OneMatchSuffices(NonCriticalPatterns, Request("m", Text("x = 1"), context), Assignment);
  }
}

=== FILE: common.dfy ===
/** Small failure-carrying datatypes shared by the router, the metrics store and
    the token manager. */
module Common {

  /** A value that may be absent: JavaScript's `undefined`, a missing map key,
      an unset environment variable. */
  datatype Option<T> = None | Some(value: T)

  /** The outcome of a call into a collaborator that may throw. */
  datatype Outcome<T> = Returned(value: T) | Threw

  /** JavaScript truthiness of an optional string: present and non-empty. */
  predicate Truthy(s: Option<string>)
  {
    s.Some? && s.value != ""
  }

  /** `a || b` on optional strings: `a` when it is truthy, otherwise `b`. */
  function OrElse(a: Option<string>, b: Option<string>): (r: Option<string>)
    ensures Truthy(a) ==> r == a
    ensures !Truthy(a) ==> r == b
    ensures Truthy(r) <==> Truthy(a) || Truthy(b)
  {
    if Truthy(a) then a else b
  }

  /** Index of the first element of `xs` that `accept` holds of, scanning
      from the front. */
  function FirstWhere<T>(xs: seq<T>, accept: T -> bool): (r: Option<nat>)
    ensures r.Some? ==> r.value < |xs| && accept(xs[r.value])
    ensures r.Some? ==> forall j | 0 <= j < r.value :: !accept(xs[j])
    ensures r.None? ==> forall j | 0 <= j < |xs| :: !accept(xs[j])
    decreases |xs|
  {
    if |xs| == 0 then None
    else if accept(xs[0]) then Some(0)
    else match FirstWhere(xs[1..], accept)
      case None => None
      case Some(k) => Some(k + 1)
  }
}

=== FILE: metrics.dfy ===
/** The metrics collector: per-model latency samples kept in a bounded FIFO
    buffer, queried as a mean per model. */
module Metrics {
  import opened Common

  /** Capacity of each model's sample buffer. */
  const MaxSamples: nat := 100

  /** Recorded latencies (milliseconds) per model name, oldest first. */
  type Store = map<string, seq<int>>

  /** A latency query answer: `Some(mean)`, or `None` for Infinity. */
  type Latency = Option<real>

  /** What the router reports after classifying a request. */
  datatype RoutingRecord = RoutingRecord(originalModel: string, selectedModel: string, isCritical: bool)

  /** The samples of `model`; a model never recorded has none. */
  function Samples(store: Store, model: string): (r: seq<int>)
    ensures model !in store ==> r == []
    ensures model in store ==> r == store[model]
    ensures WellFormed(store) && model in store ==> 0 < |r| <= MaxSamples
  {
    if model in store then store[model] else []
  }

  /** Every buffer in the store holds between 1 and `MaxSamples` samples. */
  predicate WellFormed(store: Store)
  {
    forall m | m in store :: 0 < |store[m]| <= MaxSamples
  }

  /** The last `MaxSamples` entries of a history. */
  function Window(history: seq<int>): (w: seq<int>)
    ensures |w| <= MaxSamples
    ensures |history| <= MaxSamples ==> w == history
    ensures |history| > MaxSamples ==> |w| == MaxSamples
  {
    if |history| <= MaxSamples then history else history[|history| - MaxSamples..]
  }

  /** `recordLatency`: append the sample, then drop the oldest one when the
      buffer holds more than `MaxSamples`. */
  function RecordLatency(store: Store, model: string, latency: int): (r: Store)
    ensures r.Keys == store.Keys + {model}
    ensures forall m | m in store && m != model :: r[m] == store[m]
    ensures |r[model]| > 0 && r[model][|r[model]| - 1] == latency
    ensures |Samples(store, model)| < MaxSamples ==> r[model] == Samples(store, model) + [latency]
    ensures |Samples(store, model)| >= MaxSamples ==> r[model] == Samples(store, model)[1..] + [latency]
    ensures WellFormed(store) ==> WellFormed(r)
  {
    var samples := Samples(store, model) + [latency];
    store[model := if |samples| > MaxSamples then samples[1..] else samples]
  }

  /** For a buffer within capacity, recording keeps the newest `MaxSamples`
      entries of the extended history. */
  lemma RecordIsWindow(store: Store, model: string, latency: int)
    requires |Samples(store, model)| <= MaxSamples
    ensures Samples(RecordLatency(store, model, latency), model) == Window(Samples(store, model) + [latency])
  {
  }

  /** Records each latency of `latencies` for `model`, in order. */
  function RecordAll(store: Store, model: string, latencies: seq<int>): Store
    decreases |latencies|
  {
    if |latencies| == 0 then store
    else RecordLatency(RecordAll(store, model, latencies[..|latencies| - 1]), model, latencies[|latencies| - 1])
  }

  /** Keeping the last `MaxSamples` of a window extended by `t` is the same
      as keeping the last `MaxSamples` of the whole history extended by `t`. */
  lemma WindowOfWindow(history: seq<int>, t: seq<int>)
    ensures Window(Window(history) + t) == Window(history + t)
  {
    if |history| > MaxSamples {
      var k := |history| - MaxSamples;
      var h := history + t;
      assert Window(history) + t == h[k..];
      if |t| > 0 {
        assert h[k..][|t|..] == h[|h| - MaxSamples..];
      }
    }
  }

  /** FIFO eviction: after any run of recordings, a model's buffer holds
      exactly the newest `MaxSamples` latencies of its whole history, in
      order. */
  lemma {:induction false} HistoryWindow(store: Store, model: string, latencies: seq<int>)
    requires |Samples(store, model)| <= MaxSamples
    ensures Samples(RecordAll(store, model, latencies), model) == Window(Samples(store, model) + latencies)
    decreases |latencies|
  {
    var before := Samples(store, model);
    if |latencies| == 0 {
      assert before + latencies == before;
    } else {
      var n := |latencies| - 1;
      var prefix, x := latencies[..n], latencies[n];
      var prev := RecordAll(store, model, prefix);
      HistoryWindow(store, model, prefix);
      RecordIsWindow(prev, model, x);
      WindowOfWindow(before + prefix, [x]);
      SplitLast(before, latencies);
    }
  }

  lemma SplitLast(before: seq<int>, latencies: seq<int>)
    requires |latencies| > 0
    ensures before + latencies[..|latencies| - 1] + [latencies[|latencies| - 1]] == before + latencies
  {
    assert latencies[..|latencies| - 1] + [latencies[|latencies| - 1]] == latencies;
  }

  /** Recording for one model never changes another model's buffer. */
  lemma {:induction false} RecordAllOthersUnchanged(store: Store, model: string, latencies: seq<int>, other: string)
    requires other != model
    ensures Samples(RecordAll(store, model, latencies), other) == Samples(store, other)
    decreases |latencies|
  {
    if |latencies| > 0 {
      RecordAllOthersUnchanged(store, model, latencies[..|latencies| - 1], other);
    }
  }

  /** `samples.reduce((a, b) => a + b)`: the left fold of `+`. */
  function Sum(s: seq<int>): (r: int)
    ensures |s| == 0 ==> r == 0
    ensures |s| == 1 ==> r == s[0]
  {
    if |s| == 0 then 0 else Sum(s[..|s| - 1]) + s[|s| - 1]
  }

  /** The fold can be split anywhere: the sum of a concatenation is the sum
      of the sums. */
  lemma {:induction false} SumAppend(a: seq<int>, b: seq<int>)
    ensures Sum(a + b) == Sum(a) + Sum(b)
    decreases |b|
  {
    if |b| > 0 {
      var l := |b| - 1;
      assert (a + b)[..|a + b| - 1] == a + b[..l];
      SumAppend(a, b[..l]);
    } else {
      assert a + b == a;
    }
  }

  /** The arithmetic mean of a non-empty sample buffer. */
  function Mean(s: seq<int>): (r: real)
    requires |s| > 0
    ensures r * (|s| as real) == Sum(s) as real
  {
    Sum(s) as real / |s| as real
  }

  /** The answer for one model: its mean, or Infinity with no samples. */
  function LatencyOf(store: Store, model: string): (r: Latency)
    ensures r.None? <==> |Samples(store, model)| == 0
    ensures r.Some? ==> r.value * (|Samples(store, model)| as real) == Sum(Samples(store, model)) as real
  {
    var s := Samples(store, model);
    if |s| > 0 then Some(Mean(s)) else None
  }

  /** `getModelLatencies`: one entry per requested model, its mean latency,
      or Infinity when it has no samples. */
  function ModelLatencies(store: Store, models: seq<string>): (r: map<string, Latency>)
    ensures r.Keys == set m | m in models
    ensures forall m | m in r :: r[m] == LatencyOf(store, m)
  {
    map m | m in models :: LatencyOf(store, m)
  }

  /** Every sample of `s` lies between `lo` and `hi`. */
  predicate Bounded(s: seq<int>, lo: int, hi: int)
  {
    forall j | 0 <= j < |s| :: lo <= s[j] <= hi
  }

  lemma {:induction false} SumBounds(s: seq<int>, lo: int, hi: int)
    requires Bounded(s, lo, hi)
    ensures |s| * lo <= Sum(s) <= |s| * hi
    decreases |s|
  {
    if |s| > 0 {
      var n := |s| - 1;
      assert Bounded(s[..n], lo, hi);
      SumBounds(s[..n], lo, hi);
      assert Sum(s) == Sum(s[..n]) + s[n];
      assert |s| * lo == n * lo + lo;
      assert |s| * hi == n * hi + hi;
    }
  }

  /** A reported mean lies between the smallest and the largest sample. */
  lemma MeanWithinSamples(store: Store, models: seq<string>, m: string, lo: int, hi: int)
    requires m in models && Bounded(Samples(store, m), lo, hi)
    ensures ModelLatencies(store, models)[m].Some? ==>
      lo as real <= ModelLatencies(store, models)[m].value <= hi as real
  {
    var s := Samples(store, m);
    if |s| > 0 {
      SumBounds(s, lo, hi);
      QuotientBounds(Sum(s), |s|, lo, hi);
    }
  }

  /** `lo * n <= sum <= hi * n` bounds the quotient `sum / n` by `lo` and `hi`. */
  lemma QuotientBounds(sum: int, n: int, lo: int, hi: int)
    requires n > 0 && n * lo <= sum <= n * hi
    ensures lo as real <= sum as real / n as real <= hi as real
  {
    var q := sum as real / n as real;
    assert q * n as real == sum as real;
    assert (n * lo) as real == n as real * lo as real;
    assert (n * hi) as real == n as real * hi as real;
  }

  /** `recordRouting` only logs: no model's samples change. */
  function RecordRouting(store: Store, record: RoutingRecord): (r: Store)
    ensures forall m :: Samples(r, m) == Samples(store, m)
  {
    store
  }
}

=== FILE: patterns.dfy ===
/** The six regular expressions the operation classifier treats as markers of a
    non-critical edit, each stated as a predicate over the snippet text with the
    semantics of a JavaScript regular expression without flags: `^` and `$`
    anchor at the ends of the whole input, `.` matches anything but a line
    terminator, `\s` is JavaScript's white-space class and `\w` is [A-Za-z0-9_]. */
module Patterns {

  /** One entry of the non-critical pattern list, in declaration order. */
  datatype Pattern =
    | LineComment     // a `//` comment that runs to the end of the input
    | Assignment      // `name = value` from the start of the input
    | LogCall         // `.log`, `.info` or `.debug`
    | ImportStatement // `import` followed by an import list
    | DocSummary      // `<summary>...</summary>` on one line
    | ChineseKeyword  // comment, documentation, completion, explain, format

  /** The list the classifier scans, in the order the source declares it. */
  const NonCriticalPatterns: seq<Pattern> :=
    [LineComment, Assignment, LogCall, ImportStatement, DocSummary, ChineseKeyword]

  predicate IsWordChar(c: char)
  {
    ('a' <= c <= 'z') || ('A' <= c <= 'Z') || ('0' <= c <= '9') || c == '_'
  }

  predicate IsLineTerminator(c: char)
  {
    c == '\n' || c == '\r' || c == '\U{2028}' || c == '\U{2029}'
  }

  /** JavaScript's `\s`: ASCII and Unicode white space, line terminators and
      the byte-order mark. */
  predicate IsSpace(c: char)
  {
    || c == '\t' || c == '\n' || c == '\U{000B}' || c == '\U{000C}' || c == '\r'
    || c == ' ' || c == '\U{00A0}' || c == '\U{1680}'
    || ('\U{2000}' <= c <= '\U{200A}')
    || c == '\U{2028}' || c == '\U{2029}' || c == '\U{202F}' || c == '\U{205F}'
    || c == '\U{3000}' || c == '\U{FEFF}'
  }

  /** The character class `[\w{},\s]` of the import pattern. */
  predicate IsImportListChar(c: char)
  {
    IsWordChar(c) || IsSpace(c) || c == '{' || c == '}' || c == ','
  }

  /** `.*$` without the multi-line flag: nothing up to the end is a line terminator. */
  predicate OneLine(s: string)
  {
    forall j | 0 <= j < |s| :: !IsLineTerminator(s[j])
  }

  predicate AllSpace(s: string)
  {
    forall j | 0 <= j < |s| :: IsSpace(s[j])
  }

  predicate AllWordOrSpace(s: string)
  {
    forall j | 0 <= j < |s| :: IsWordChar(s[j]) || IsSpace(s[j])
  }

  /** `t` occurs in `s` starting at index `i`. */
  predicate OccursAt(s: string, t: string, i: nat)
  {
    i + |t| <= |s| && s[i..i + |t|] == t
  }

  predicate Contains(s: string, t: string)
  {
    exists i: nat | i <= |s| :: OccursAt(s, t, i)
  }

  /** `/\/\/.*$/`: some `//` is followed by the rest of the input on one line. */
  predicate CommentAt(s: string, i: nat)
  {
    OccursAt(s, "//", i) && OneLine(s[i + 2..])
  }

  /** `/^[\w\s]+\s*=\s*.*$/` with the `=` at index `k` and the value starting at
      index `m`: a non-empty word-or-space prefix, the `=`, white space (which
      may span lines), then one line up to the end of the input. */
  predicate AssignmentAt(s: string, k: nat, m: nat)
  {
    1 <= k < m <= |s| && s[k] == '=' && AllWordOrSpace(s[..k])
    && AllSpace(s[k + 1..m]) && OneLine(s[m..])
  }

  /** `/import\s+[\w{},\s]+/`: since `\s` is inside the list class, this holds
      exactly when `import` is followed by one white-space character and then
      one list character. */
  predicate ImportAt(s: string, i: nat)
  {
    OccursAt(s, "import", i) && i + 7 < |s| && IsSpace(s[i + 6]) && IsImportListChar(s[i + 7])
  }

  /** `/<summary>.*<\/summary>/`: an opening tag and a later closing tag with
      no line terminator between them. */
  predicate SummaryAt(s: string, i: nat, j: nat)
  {
    OccursAt(s, "<summary>", i) && i + 9 <= j && OccursAt(s, "</summary>", j)
    && OneLine(s[i + 9..j])
  }

  /** The five keywords of the last pattern: comment, documentation,
      completion, explain, format. */
  const ChineseKeywords: seq<string> := [
    "\U{6CE8}\U{91CA}",
    "\U{6587}\U{6863}",
    "\U{8865}\U{5168}",
    "\U{89E3}\U{91CA}",
    "\U{683C}\U{5F0F}\U{5316}"
  ]

  /** The shortest text each pattern can match. */
  function MinMatchLength(p: Pattern): nat
  {
    match p
    case LineComment => 2
    case Assignment => 2
    case LogCall => 4
    case ImportStatement => 8
    case DocSummary => 19
    case ChineseKeyword => 2
  }

  /** `RegExp.prototype.test` of pattern `p` on the string `s`. */
  function Test(p: Pattern, s: string): (r: bool)
    ensures r ==> |s| >= MinMatchLength(p)
  {
    match p
    case LineComment => exists i: nat | i <= |s| :: CommentAt(s, i)
    case Assignment => exists k: nat, m: nat | k < m <= |s| :: AssignmentAt(s, k, m)
    case LogCall => Contains(s, ".log") || Contains(s, ".info") || Contains(s, ".debug")
    case ImportStatement => exists i: nat | i <= |s| :: ImportAt(s, i)
    case DocSummary => exists i: nat, j: nat | i <= j <= |s| :: SummaryAt(s, i, j)
    case ChineseKeyword => exists w | w in ChineseKeywords :: Contains(s, w)
  }

  /** Every character of `s` is one of the letters of the word "undefined". */
  predicate OnlyLettersOfUndefined(s: string)
  {
    forall j | 0 <= j < |s| :: s[j] in "undefi"
  }

  /** No pattern matches a string made only of the letters u, n, d, e, f, i:
      each pattern needs a character outside that alphabet (`/`, `=`, `.`,
      `p`, `<` or a CJK character). */
  lemma NoPatternMatchesPlainLetters(p: Pattern, s: string)
    requires OnlyLettersOfUndefined(s)
    ensures !Test(p, s)
  {
    match p
    case LineComment =>
      forall i: nat | i <= |s| ensures !CommentAt(s, i) {
        LettersOnlyNoOccurrence(s, "//", i);
      }
    case Assignment =>
    case LogCall =>
      forall t | t in [".log", ".info", ".debug"] ensures !Contains(s, t) {
        forall i: nat | i <= |s| ensures !OccursAt(s, t, i) {
          LettersOnlyNoOccurrence(s, t, i);
        }
      }
    case ImportStatement =>
      forall i: nat | i <= |s| ensures !ImportAt(s, i) {
        if i + 2 < |s| { assert s[i + 2] in "undefi"; }
      }
    case DocSummary =>
      forall i: nat, j: nat | i <= j <= |s| ensures !SummaryAt(s, i, j) {
        LettersOnlyNoOccurrence(s, "<summary>", i);
      }
    case ChineseKeyword =>
      forall w | w in ChineseKeywords ensures !Contains(s, w) {
        forall i: nat | i <= |s| ensures !OccursAt(s, w, i) {
          LettersOnlyNoOccurrence(s, w, i);
        }
      }
  }

  /** A word whose first character is not one of u, n, d, e, f, i never occurs
      in a string made of those letters. */
  lemma LettersOnlyNoOccurrence(s: string, t: string, i: nat)
    requires OnlyLettersOfUndefined(s)
    requires |t| > 0 && t[0] !in "undefi"
    ensures !OccursAt(s, t, i)
  {
    if i < |s| {
      assert s[i] in "undefi";
    }
  }

  /** The string JavaScript substitutes for an absent snippet matches no pattern. */
  lemma UndefinedMatchesNothing()
    ensures forall p: Pattern :: !Test(p, "undefined")
  {
    assert OnlyLettersOfUndefined("undefined");
    forall p: Pattern ensures !Test(p, "undefined") {
      NoPatternMatchesPlainLetters(p, "undefined");
    }
  }

  /** Sample inputs the patterns are meant to recognise. */
  lemma SampleMatches()
    ensures Test(LineComment, "x; // note")
    ensures Test(Assignment, "x = 1")
    ensures Test(LogCall, "console.log")
    ensures !Test(LineComment, "// a\nb")
  {
    assert CommentAt("x; // note", 3);
    assert AssignmentAt("x = 1", 2, 4);
    assert OccursAt("console.log", ".log", 7);
    var s := "// a\nb";
    forall i: nat | i <= |s| ensures !CommentAt(s, i) {
      if i == 0 {
        assert s[2..][2] == '\n';
      } else if i + 1 < |s| {
        assert s[i + 1] != '/';
      }
    }
  }

  /** A comment on the last line matches even after earlier lines. */
  lemma CommentOnLastLine()
    ensures Test(LineComment, "x\n// c")
  {
    assert CommentAt("x\n// c", 2);
  }

  /** `import` needs white space and then at least one list character. */
  lemma ImportSamples()
    ensures Test(ImportStatement, "import  x")
    ensures !Test(ImportStatement, "import ")
  {
    assert ImportAt("import  x", 0);
    var s := "import ";
    forall i: nat | i <= |s| ensures !ImportAt(s, i) {
    }
  }

  /** A one-line `<summary>` element matches. */
  lemma SummarySample()
    ensures Test(DocSummary, "<summary>a</summary>")
  {
    assert SummaryAt("<summary>a</summary>", 0, 10);
  }

  /** A text containing the keyword for "format" matches. */
  lemma KeywordSample()
    ensures Test(ChineseKeyword, "\U{683C}\U{5F0F}\U{5316}\U{4EE3}\U{7801}")
  {
    var s := "\U{683C}\U{5F0F}\U{5316}\U{4EE3}\U{7801}";
    var w := ChineseKeywords[4];
    assert OccursAt(s, w, 0);
    assert Contains(s, w);
  }
}

=== FILE: router.dfy ===
/** The smart router: keeps the requested model unless a Pro user with no
    fast requests left sends a non-critical request, which goes to the fast
    model. */
module Router {
  import opened Common
  import opened Classifier
  import opened Metrics

  /** The router's hard-coded fast model. */
  const FastModel: string := "claude-3.5"

  /** What one routing call produces: the model to use, whether the
      classifier was consulted, and the record handed to `recordRouting`. */
  datatype Decision = Decision(selected: string, classified: bool, record: Option<RoutingRecord>)

  /** `routeRequest`. `isPro` and `remaining` are what the user-state
      detector's two calls produced (`Threw` when a call throws);
      `reportThrows` says whether the logging after `recordRouting` throws.
      Every exception inside the `try` ends in the pass-through answer. */
  function Route(request: Request, isPro: Outcome<bool>, remaining: Outcome<int>, reportThrows: bool): (d: Decision)
    ensures d.selected == request.model || d.selected == FastModel
    ensures d.record.Some? <==> d.classified
    ensures isPro != Returned(true) ==> d == Decision(request.model, false, None)
    ensures isPro == Returned(true) && (remaining.Threw? || remaining.value > 0) ==>
      d == Decision(request.model, false, None)
    ensures isPro == Returned(true) && remaining.Returned? && remaining.value <= 0 ==>
      var critical := Classify(request).isCritical;
      && d.classified
      && d.record == Some(RoutingRecord(request.model, if critical then request.model else FastModel, critical))
      && d.selected == (if critical || reportThrows then request.model else FastModel)
  {
    match isPro
    case Threw => Decision(request.model, false, None)
    case Returned(pro) =>
      if !pro then Decision(request.model, false, None)
      else match remaining
        case Threw => Decision(request.model, false, None)
        case Returned(n) =>
          if n > 0 then Decision(request.model, false, None)
          else
            var verdict := Classify(request);
            var selected := if verdict.isCritical then request.model else FastModel;
            var record := RoutingRecord(request.model, selected, verdict.isCritical);
            if reportThrows then Decision(request.model, true, Some(record))
            else Decision(selected, true, Some(record))
  }

  /** A request is sent somewhere other than where it asked to go exactly when
      the user is Pro, has no fast requests left, no step throws, some
      non-critical pattern matches the snippet, and it did not already ask for
      the fast model. */
  lemma RoutedAwayIff(request: Request, isPro: Outcome<bool>, remaining: Outcome<int>, reportThrows: bool)
    ensures Route(request, isPro, remaining, reportThrows).selected != request.model <==>
      && isPro == Returned(true)
      && remaining.Returned? && remaining.value <= 0
      && !reportThrows
      && !request.codeSnippet.Unconvertible?
      && (exists p | p in Patterns.NonCriticalPatterns :: Patterns.Test(p, SnippetText(request.codeSnippet)))
      && request.model != FastModel
  {
  }

  /** `a < b` on latencies, with `None` standing for Infinity. */
  function Faster(a: Latency, b: Latency): (r: bool)
    ensures r ==> a.Some?
    ensures a.Some? && b.None? ==> r
    ensures a == b ==> !r
    ensures a.Some? && b.Some? ==> (r <==> a.value < b.value)
  {
    a.Some? && (b.None? || a.value < b.value)
  }

  /** The index `models.reduce` ends on: the running choice is replaced only
      by a strictly faster model, so it is the first of the fastest. */
  function FastestIndex(models: seq<string>, latencies: map<string, Latency>): (k: nat)
    requires |models| > 0
    requires forall m | m in models :: m in latencies
    ensures IsFirstFastest(models, latencies, k)
    decreases |models|
  {
    if |models| == 1 then 0
    else
      var last := |models| - 1;
      var k := FastestIndex(models[..last], latencies);
      if Faster(latencies[models[last]], latencies[models[k]]) then last else k
  }

  /** `k` names a model no other model is faster than, and every earlier model
      is strictly slower. */
  predicate IsFirstFastest(models: seq<string>, latencies: map<string, Latency>, k: nat)
    requires forall m | m in models :: m in latencies
  {
    && k < |models|
    && (forall j | 0 <= j < |models| :: !Faster(latencies[models[j]], latencies[models[k]]))
    && (forall j | 0 <= j < k :: Faster(latencies[models[k]], latencies[models[j]]))
  }

  /** There is only one first-fastest index, so the reduce's answer is fully
      determined by the latencies. */
  lemma FirstFastestUnique(models: seq<string>, latencies: map<string, Latency>, k: nat)
    requires |models| > 0
    requires forall m | m in models :: m in latencies
    requires IsFirstFastest(models, latencies, k)
    ensures k == FastestIndex(models, latencies)
  {
  }

  /** `checkModelLatency`: the model with the lowest mean latency, the earliest
      one on a tie. An empty list makes the reduce throw, modelled as `None`. */
  function CheckModelLatency(store: Store, models: seq<string>): (r: Option<string>)
    ensures r.None? <==> |models| == 0
    ensures r.Some? ==> r.value in models
    ensures r.Some? ==> forall m | m in models :: !Faster(LatencyOf(store, m), LatencyOf(store, r.value))
    ensures r.Some? ==> exists k | 0 <= k < |models| ::
      r.value == models[k] && IsFirstFastest(models, ModelLatencies(store, models), k)
  {
    if |models| == 0 then None
    else Some(models[FastestIndex(models, ModelLatencies(store, models))])
  }

  /** With equal latencies everywhere (for instance, no samples at all, so
      every model reports Infinity) the first model is chosen. */
  lemma TieGoesToFirst(store: Store, models: seq<string>)
    requires |models| > 0
    requires forall m | m in models :: LatencyOf(store, m) == LatencyOf(store, models[0])
    ensures CheckModelLatency(store, models) == Some(models[0])
  {
  }
}

=== FILE: token_manager.dfy ===
/** Token discovery, rotation and refresh. The outside world is a set of
    oracles fixed for one call: whether the account service accepts a token,
    the token a `POST /auth/token` call issues, and the current time. */
module TokenManager {
  import opened Common
  import opened TokenStore

  /** `validateToken` (true exactly when the status probe answers 200), the
      token the service issues (`None` when the call fails or the answer has
      no token), and `Date.now()`. */
  datatype Oracle = Oracle(valid: string -> bool, issued: Option<string>, now: int)

  /** A call's answer together with the world it leaves behind. */
  datatype TokenResult = TokenResult(token: Option<string>, world: World)

  /** A token found during discovery and the source tag it is saved with. */
  datatype Candidate = Candidate(token: string, source: string)

  /** The token a configuration file offers: `config.token || config.tokens?.[0]?.token`.
      Missing and unreadable files offer nothing, and so does a list (the
      rotation file), which has neither field. */
  function FileToken(files: map<string, FileContent>, path: string): (r: Option<string>)
    ensures path !in files || files[path].Garbage? ==> r.None?
    ensures path in files && files[path].TokenList? ==> !Truthy(r)
    ensures path in files && files[path].ConfigObject? && Truthy(files[path].token) ==>
      r == files[path].token
    ensures path in files && files[path].ConfigObject? && !Truthy(files[path].token) ==>
      r == files[path].firstListToken
  {
    if path !in files then None
    else match files[path]
      case ConfigObject(token, firstListToken) => OrElse(token, firstListToken)
      case _ => None
  }

  /** The active token is unexpired and the service accepts it. */
  function ActiveUsable(w: World, o: Oracle): (r: bool)
    ensures w.active.None? ==> !r
    ensures w.active.Some? && w.active.value.expiresAt <= o.now ==> !r
    ensures w.active.Some? && !o.valid(w.active.value.token) ==> !r
    ensures w.active.Some? && w.active.value.expiresAt > o.now && o.valid(w.active.value.token) ==> r
  {
    w.active.Some? && w.active.value.expiresAt > o.now && o.valid(w.active.value.token)
  }

  /** A discovered token is saved before it is returned: when the save
      completes, it is the active token with its source and a day to live. */
  function Found(w: World, host: Host, o: Oracle, c: Candidate): (r: TokenResult)
    ensures r.token == Some(c.token)
    ensures r.world.timer == w.timer
    ensures SaveSucceeds(w, host) ==> r.world.active == Some(TokenInfo(c.token, o.now + TokenLifetime, c.source))
    ensures !SaveSucceeds(w, host) ==> r.world.active == w.active
  {
    TokenResult(Some(c.token), SaveToken(w, host, o.now, c.token, c.source))
  }

  /** `getToken`: the active token when it is usable, otherwise discovery. */
  function GetToken(w: World, host: Host, o: Oracle): (r: TokenResult)
    ensures ActiveUsable(w, o) ==> r == TokenResult(Some(w.active.value.token), w)
    ensures !ActiveUsable(w, o) ==> r == DiscoverySpec(w, host, o)
    ensures r.world.timer == w.timer
  {
    if ActiveUsable(w, o) then TokenResult(Some(w.active.value.token), w)
    else
      DiscoveryIsFirstValid(w, host, o);
      Discover(w, host, o)
  }

  /** `context.secrets.get` rejects. The rejection escapes to `getToken`'s
      outer catch, so discovery ends there with undefined. */
  predicate SecretReadFails(host: Host)
  {
    host.hasContext && host.secretReadFails
  }

  /** Discovery: a rejecting secure-store read ends it with undefined;
      otherwise the search over local sources picks a candidate, which is
      saved and returned, and when it finds none, the service is asked. */
  function Discover(w: World, host: Host, o: Oracle): (r: TokenResult)
    ensures r.world.timer == w.timer
    ensures r.token.None? ==> r.world == w
    ensures SecretReadFails(host) ==> r.token.None?
  {
    if SecretReadFails(host) then TokenResult(None, w)
    else match Search(w, host, o)
      case Some(c) => Found(w, host, o, c)
      case None => FromService(w, host, o)
  }

  /** The local search, step one: the secure store's `cursorApiToken`. */
  function Search(w: World, host: Host, o: Oracle): (r: Option<Candidate>)
    ensures r.Some? ==> o.valid(r.value.token)
  {
    if host.hasContext && Truthy(w.secret) && o.valid(w.secret.value) then
      Some(Candidate(w.secret.value, "vscode"))
    else FromFiles(w, o, StoragePaths(host))
  }

  /** Step two: each configuration file in order. */
  function FromFiles(w: World, o: Oracle, paths: seq<string>): (r: Option<Candidate>)
    ensures r.Some? ==> o.valid(r.value.token)
    decreases |paths|
  {
    if |paths| == 0 then FromEnvironment(w, o)
    else
      var t := FileToken(w.files, paths[0]);
      if Truthy(t) && o.valid(t.value) then Some(Candidate(t.value, paths[0]))
      else FromFiles(w, o, paths[1..])
  }

  /** `CURSOR_TOKEN || CURSOR_API_TOKEN`. */
  function EnvToken(w: World): (r: Option<string>)
    ensures Truthy(w.cursorToken) ==> r == w.cursorToken
    ensures !Truthy(w.cursorToken) ==> r == w.cursorApiToken
    ensures Truthy(r) <==> Truthy(w.cursorToken) || Truthy(w.cursorApiToken)
  {
    OrElse(w.cursorToken, w.cursorApiToken)
  }

  /** Step three: the environment. */
  function FromEnvironment(w: World, o: Oracle): (r: Option<Candidate>)
    ensures r.Some? ==> o.valid(r.value.token)
  {
    var e := EnvToken(w);
    if Truthy(e) && o.valid(e.value) then Some(Candidate(e.value, "env")) else None
  }

  /** Step four: a token newly issued by the service, saved without being
      validated. */
  function FromService(w: World, host: Host, o: Oracle): (r: TokenResult)
    ensures r.token.None? <==> !Truthy(o.issued)
    ensures r.token.None? ==> r.world == w
    ensures r.token.Some? ==> r.token == o.issued && r.world == SaveToken(w, host, o.now, o.issued.value, "api")
  {
    if Truthy(o.issued) then Found(w, host, o, Candidate(o.issued.value, "api"))
    else TokenResult(None, w)
  }

  // ----- A reference definition of discovery: the first candidate that validates -----

  function SecureCandidates(w: World, host: Host): seq<Candidate>
  {
    if host.hasContext && Truthy(w.secret) then [Candidate(w.secret.value, "vscode")] else []
  }

  function FileCandidates(files: map<string, FileContent>, paths: seq<string>): (r: seq<Candidate>)
    ensures forall c | c in r :: c.token != ""
    decreases |paths|
  {
    if |paths| == 0 then []
    else
      var t := FileToken(files, paths[0]);
      (if Truthy(t) then [Candidate(t.value, paths[0])] else []) + FileCandidates(files, paths[1..])
  }

  function EnvCandidates(w: World): seq<Candidate>
  {
    if Truthy(EnvToken(w)) then [Candidate(EnvToken(w).value, "env")] else []
  }

  /** Every token discovery may try, in the order it tries them. */
  function Candidates(w: World, host: Host): seq<Candidate>
  {
    SecureCandidates(w, host) + FileCandidates(w.files, StoragePaths(host)) + EnvCandidates(w)
  }

  /** The first candidate the service accepts. */
  function FirstValid(cs: seq<Candidate>, valid: string -> bool): (r: Option<nat>)
    ensures r.Some? ==> r.value < |cs| && valid(cs[r.value].token)
    ensures r.Some? ==> forall j | 0 <= j < r.value :: !valid(cs[j].token)
    ensures r.None? ==> forall j | 0 <= j < |cs| :: !valid(cs[j].token)
  {
    FirstWhere(cs, (c: Candidate) => valid(c.token))
  }

  /** The candidate `FirstValid` picks, if any. */
  function Pick(cs: seq<Candidate>, valid: string -> bool): (r: Option<Candidate>)
  {
    match FirstValid(cs, valid)
    case Some(k) => Some(cs[k])
    case None => None
  }

  /** Discovery as the specification of its outcome: unless reading the
      secure store rejects, the first candidate that validates is saved and
      returned; when none does, the service is asked for a new token. */
  function DiscoverySpec(w: World, host: Host, o: Oracle): TokenResult
  {
    if SecretReadFails(host) then TokenResult(None, w)
    else match Pick(Candidates(w, host), o.valid)
      case Some(c) => Found(w, host, o, c)
      case None => FromService(w, host, o)
  }

  /** Putting a candidate in front: it is picked when it validates, and
      otherwise the pick of the rest stands. */
  lemma PickCons(c: Candidate, rest: seq<Candidate>, valid: string -> bool)
    ensures Pick([c] + rest, valid) == if valid(c.token) then Some(c) else Pick(rest, valid)
  {
    var cs := [c] + rest;
    assert cs[1..] == rest;
    if !valid(c.token) {
      match FirstValid(rest, valid)
      case None =>
      case Some(k) => assert cs[k + 1] == rest[k];
    }
  }

  /** The file loop followed by the environment step picks the first valid
      candidate among the file and environment candidates. */
  lemma {:induction false} FromFilesIsFirstValid(w: World, o: Oracle, paths: seq<string>)
    ensures FromFiles(w, o, paths) == Pick(FileCandidates(w.files, paths) + EnvCandidates(w), o.valid)
    decreases |paths|
  {
    if |paths| == 0 {
      assert FileCandidates(w.files, paths) + EnvCandidates(w) == EnvCandidates(w);
      if Truthy(EnvToken(w)) {
        PickCons(Candidate(EnvToken(w).value, "env"), [], o.valid);
      }
    } else {
      var t := FileToken(w.files, paths[0]);
      var rest := FileCandidates(w.files, paths[1..]) + EnvCandidates(w);
      FromFilesIsFirstValid(w, o, paths[1..]);
      if Truthy(t) {
        var c := Candidate(t.value, paths[0]);
        assert FileCandidates(w.files, paths) + EnvCandidates(w) == [c] + rest;
        PickCons(c, rest, o.valid);
      } else {
        assert FileCandidates(w.files, paths) + EnvCandidates(w) == rest;
      }
    }
  }

  /** The local search tries the secure store, then the configuration files
      in order, then the environment, and picks the first token the service
      accepts. */
  lemma SearchIsFirstValid(w: World, host: Host, o: Oracle)
    ensures Search(w, host, o) == Pick(Candidates(w, host), o.valid)
  {
    var secure := SecureCandidates(w, host);
    var rest := FileCandidates(w.files, StoragePaths(host)) + EnvCandidates(w);
    FromFilesIsFirstValid(w, o, StoragePaths(host));
    AppendAssoc(secure, FileCandidates(w.files, StoragePaths(host)), EnvCandidates(w));
    if host.hasContext && Truthy(w.secret) {
      PickCons(Candidate(w.secret.value, "vscode"), rest, o.valid);
    } else {
      assert secure + rest == rest;
    }
  }

  lemma AppendAssoc(a: seq<Candidate>, b: seq<Candidate>, c: seq<Candidate>)
    ensures a + b + c == a + (b + c)
  {
  }

  /** Discovery saves and returns the first candidate the service accepts,
      and asks the service only when there is none. */
  lemma DiscoveryIsFirstValid(w: World, host: Host, o: Oracle)
    ensures Discover(w, host, o) == DiscoverySpec(w, host, o)
  {
    SearchIsFirstValid(w, host, o);
  }

  /** `getToken` answers undefined exactly when the active token is not
      usable and either reading the secure store rejects, or no candidate
      validates and the service issues nothing; in that case nothing
      changes. */
  lemma GetTokenNoneIff(w: World, host: Host, o: Oracle)
    ensures GetToken(w, host, o).token.None? <==>
      && !ActiveUsable(w, o)
      && (|| SecretReadFails(host)
          || ((forall c | c in Candidates(w, host) :: !o.valid(c.token)) && !Truthy(o.issued)))
    ensures GetToken(w, host, o).token.None? ==> GetToken(w, host, o).world == w
  {
    var cs := Candidates(w, host);
    if forall c | c in cs :: !o.valid(c.token) {
      assert FirstValid(cs, o.valid).None?;
    }
  }

  /** A rejecting secure-store read hides every later source: even a
      configuration file whose token validates is never reached. */
  lemma SecretReadFailureBlocksDiscovery(w: World, host: Host, o: Oracle, path: string)
    requires !ActiveUsable(w, o) && SecretReadFails(host)
    requires path in StoragePaths(host)
    requires Truthy(FileToken(w.files, path)) && o.valid(FileToken(w.files, path).value)
    ensures GetToken(w, host, o) == TokenResult(None, w)
  {
  }

  /** When nothing validates, the service's token is saved and returned
      without being validated. */
  lemma ServiceTokenTrustedUnchecked(w: World, host: Host, o: Oracle)
    requires !ActiveUsable(w, o) && !SecretReadFails(host)
    requires forall c | c in Candidates(w, host) :: !o.valid(c.token)
    requires Truthy(o.issued)
    ensures GetToken(w, host, o) == TokenResult(o.issued, SaveToken(w, host, o.now, o.issued.value, "api"))
  {
    var cs := Candidates(w, host);
    assert forall j | 0 <= j < |cs| :: !o.valid(cs[j].token);
  }

  /** The rotation file is one of the searched paths, but it never supplies
      a token to discovery: a list has no `token` field. */
  lemma RotationFileOffersNothing(w: World, host: Host)
    requires RotationPath(host.home) in w.files && w.files[RotationPath(host.home)].TokenList?
    ensures !Truthy(FileToken(w.files, RotationPath(host.home)))
  {
  }

  // ----- Rotation -----

  /** Index of the first (newest) saved entry the service accepts. */
  function FirstValidEntry(entries: seq<TokenInfo>, valid: string -> bool): (r: Option<nat>)
    ensures r.Some? ==> r.value < |entries| && valid(entries[r.value].token)
    ensures r.Some? ==> forall j | 0 <= j < r.value :: !valid(entries[j].token)
    ensures r.None? ==> forall j | 0 <= j < |entries| :: !valid(entries[j].token)
  {
    FirstWhere(entries, (e: TokenInfo) => valid(e.token))
  }

  /** `rotateToken`: the newest saved entry the service accepts becomes the
      active token as saved, without rewriting the file; with no such entry,
      `getToken`. A rotation file that cannot be read or iterated makes the
      call fail, answering undefined. */
  function RotateToken(w: World, host: Host, o: Oracle): (r: TokenResult)
    ensures r.world.timer == w.timer
    ensures var path := RotationPath(host.home);
      path in w.files && w.files[path].TokenList? &&
      FirstValidEntry(w.files[path].entries, o.valid).Some? ==>
        var e := w.files[path].entries[FirstValidEntry(w.files[path].entries, o.valid).value];
        r == TokenResult(Some(e.token), w.(active := Some(e)))
    ensures var path := RotationPath(host.home);
      path in w.files && !w.files[path].TokenList? ==> r == TokenResult(None, w)
    ensures var path := RotationPath(host.home);
      (path !in w.files || (w.files[path].TokenList? &&
       forall j | 0 <= j < |w.files[path].entries| :: !o.valid(w.files[path].entries[j].token)))
      ==> r == GetToken(w, host, o)
  {
    var path := RotationPath(host.home);
    if path !in w.files then GetToken(w, host, o)
    else match w.files[path]
      case TokenList(entries) =>
        (match FirstValidEntry(entries, o.valid)
         case Some(k) => TokenResult(Some(entries[k].token), w.(active := Some(entries[k])))
         case None => GetToken(w, host, o))
      case _ => TokenResult(None, w)
  }

  /** An expired active token with a rejected newest entry and an accepted
      second entry: rotation promotes the second entry. */
  lemma RotationSkipsRejectedEntry(w: World, host: Host, o: Oracle, first: TokenInfo, second: TokenInfo, rest: seq<TokenInfo>)
    requires RotationPath(host.home) in w.files
    requires w.files[RotationPath(host.home)] == TokenList([first, second] + rest)
    requires !o.valid(first.token) && o.valid(second.token)
    ensures RotateToken(w, host, o) == TokenResult(Some(second.token), w.(active := Some(second)))
  {
    var entries := [first, second] + rest;
    assert entries[1..][0] == second;
  }

  /** Rotation checks no expiry: when the expired active token heads the list
      and the service still accepts it, rotation re-activates it, and the
      result is still not usable on `getToken`'s fast path. */
  lemma RotationReactivatesExpiredHead(w: World, host: Host, o: Oracle, first: TokenInfo, rest: seq<TokenInfo>)
    requires RotationPath(host.home) in w.files
    requires w.files[RotationPath(host.home)] == TokenList([first] + rest)
    requires w.active == Some(first) && first.expiresAt <= o.now && o.valid(first.token)
    ensures RotateToken(w, host, o) == TokenResult(Some(first.token), w)
    ensures !ActiveUsable(RotateToken(w, host, o).world, o)
  {
  }

  // ----- Refresh timer -----

  /** The tick's test: there is an active token and it expires within one
      refresh interval. */
  function NeedsRefresh(active: Option<TokenInfo>, now: int): (r: bool)
    ensures active.None? ==> !r
    ensures active.Some? && active.value.expiresAt <= now ==> r
    ensures active.Some? && active.value.expiresAt >= now + RefreshInterval ==> !r
    ensures active.Some? && now < active.value.expiresAt < now + RefreshInterval ==> r
  {
    active.Some? && active.value.expiresAt - now < RefreshInterval
  }

  /** One tick of the refresh timer: when the active token is about to
      expire, ask the service for a new one, save it and export it as
      `CURSOR_API_TOKEN`. */
  function RefreshTick(w: World, host: Host, o: Oracle): (r: World)
    ensures !NeedsRefresh(w.active, o.now) || !Truthy(o.issued) ==> r == w
    ensures NeedsRefresh(w.active, o.now) && Truthy(o.issued) ==>
      && r.cursorApiToken == o.issued
      && r.cursorToken == w.cursorToken
      && r.timer == w.timer
      && (host.hasContext ==> r.secret == o.issued)
    ensures NeedsRefresh(w.active, o.now) && Truthy(o.issued) && SaveSucceeds(w, host) ==>
      && r.active == Some(TokenInfo(o.issued.value, o.now + TokenLifetime, "refresh"))
      && RotationPath(host.home) in r.files && r.files[RotationPath(host.home)].TokenList?
      && |r.files[RotationPath(host.home)].entries| > 0
      && r.files[RotationPath(host.home)].entries[0] == r.active.value
      && !NeedsRefresh(r.active, o.now)
    ensures NeedsRefresh(w.active, o.now) && Truthy(o.issued) && !SaveSucceeds(w, host) ==>
      r.active == w.active && r.files == w.files
  {
    if NeedsRefresh(w.active, o.now) && Truthy(o.issued) then
      SaveToken(w, host, o.now, o.issued.value, "refresh").(cursorApiToken := o.issued)
    else w
  }

  /** A successful refresh installs a token that the tick will leave alone
      until half an hour before it expires, a day after the refresh. */
  lemma RefreshedTokenIsFresh(w: World, host: Host, o: Oracle, later: int)
    requires NeedsRefresh(w.active, o.now) && Truthy(o.issued) && SaveSucceeds(w, host)
    requires later <= o.now + TokenLifetime - RefreshInterval
    ensures RefreshTick(w, host, o).active == Some(TokenInfo(o.issued.value, o.now + TokenLifetime, "refresh"))
    ensures !NeedsRefresh(RefreshTick(w, host, o).active, later)
  {
  }

  /** At most one timer is live, and it is the one the manager holds. */
  predicate TimerInvariant(t: Timer)
  {
    t.live <= if t.handle.Some? then {t.handle.value} else {}
  }

  /** `clearInterval` on the held handle, if any; the handle itself is kept. */
  function ClearHeld(t: Timer): (r: Timer)
    ensures r.handle == t.handle && r.nextId == t.nextId
    ensures TimerInvariant(t) ==> r.live == {}
  {
    if t.handle.Some? then t.(live := t.live - {t.handle.value}) else t
  }

  /** `stopTokenRefresh`: clear the held timer and forget it. */
  function StopTokenRefresh(w: World): (r: World)
    ensures r.timer.handle.None?
    ensures TimerInvariant(w.timer) ==> r.timer.live == {}
    ensures r.(timer := w.timer) == w
  {
    w.(timer := ClearHeld(w.timer).(handle := None))
  }

  /** Stopping twice is the same as stopping once. */
  lemma StopIdempotent(w: World)
    ensures StopTokenRefresh(StopTokenRefresh(w)) == StopTokenRefresh(w)
  {
  }

  /** `startTokenRefresh`: clear any held timer, get a token (returning early
      without a timer when it is undefined or empty), rotate when the token is
      rejected, then arm a new timer. */
  function StartTokenRefresh(w: World, host: Host, o: Oracle): (r: World)
    ensures TimerInvariant(w.timer) ==> TimerInvariant(r.timer)
    ensures !Truthy(GetToken(w.(timer := ClearHeld(w.timer)), host, o).token) ==>
      r.timer == ClearHeld(w.timer)
    ensures Truthy(GetToken(w.(timer := ClearHeld(w.timer)), host, o).token) ==>
      r.timer.handle.Some? && r.timer.live == (ClearHeld(w.timer).live + {r.timer.handle.value})
  {
    var w0 := w.(timer := ClearHeld(w.timer));
    var g := GetToken(w0, host, o);
    if !Truthy(g.token) then g.world
    else
      var w1 := if o.valid(g.token.value) then g.world else RotateToken(g.world, host, o).world;
      var id := w1.timer.nextId;
      w1.(timer := Timer(Some(id), w1.timer.live + {id}, id + 1))
  }

  /** An accepted but empty active token counts as no token: starting arms no
      timer, and a held timer is cleared. */
  lemma EmptyTokenArmsNoTimer(w: World, host: Host, o: Oracle)
    requires w.active.Some? && w.active.value.token == ""
    requires w.active.value.expiresAt > o.now && o.valid("")
    ensures StartTokenRefresh(w, host, o).timer == ClearHeld(w.timer)
  {
  }
}

=== FILE: token_store.dfy ===
/** The token manager's state and its persistence step, `saveToken`: the
    active token, the secure store's entry, the files the manager reads and
    writes, the two token environment variables and the refresh timer. */
module TokenStore {
  import opened Common

  /** Number of entries the rotation file keeps. */
  const RotationCount: nat := 3

  /** A saved token expires 24 hours (in milliseconds) after it is saved. */
  const TokenLifetime: int := 24 * 60 * 60 * 1000

  /** Period of the refresh timer, and the remaining lifetime below which a
      tick asks for a new token: 30 minutes in milliseconds. */
  const RefreshInterval: int := 30 * 60 * 1000

  datatype TokenInfo = TokenInfo(token: string, expiresAt: int, source: string)

  /** What reading and parsing a file yields: unreadable or not JSON; a JSON
      object with its `token` field and its `tokens[0].token` field; or a JSON
      array of saved tokens, the rotation file's format. */
  datatype FileContent =
    | Garbage
    | ConfigObject(token: Option<string>, firstListToken: Option<string>)
    | TokenList(entries: seq<TokenInfo>)

  /** The refresh interval timer: the handle the manager holds (which may
      name a timer already cleared), the set of timers still live, and the
      next fresh timer id. */
  datatype Timer = Timer(handle: Option<nat>, live: set<nat>, nextId: nat)

  datatype World = World(
    active: Option<TokenInfo>,
    secret: Option<string>,
    files: map<string, FileContent>,
    cursorToken: Option<string>,
    cursorApiToken: Option<string>,
    timer: Timer)

  /** Facts about the host fixed for one call: the home directory, APPDATA,
      whether an extension context (and so the secure store) is available,
      whether reading the secure store rejects, and whether the rotation file
      can be written. */
  datatype Host = Host(home: string, appData: Option<string>, hasContext: bool, secretReadFails: bool, canWrite: bool)

  /** `path.join` of a base and a relative part, without normalisation. */
  function Join(base: string, part: string): (r: string)
    ensures part != "" ==> r != ""
  {
    if base == "" then part else base + "/" + part
  }

  function JoinAll(base: string, parts: seq<string>): (r: string)
    ensures base != "" || (|parts| > 0 && parts[0] != "") ==> r != ""
    decreases |parts|
  {
    if |parts| == 0 then base
    else JoinAll(Join(base, parts[0]), parts[1..])
  }

  /** The rotation file, `~/.cursor/tokens.json`. */
  function RotationPath(home: string): (r: string)
    ensures r != ""
    ensures home != "" ==> r == home + "/.cursor/tokens.json"
  {
    JoinAll(home, [".cursor", "tokens.json"])
  }

  function AppDataPath(appData: string): string
  {
    JoinAll(appData, ["cursor", "config.json"])
  }

  /** `.filter(Boolean)` on a list of paths: the non-empty ones, in order. */
  function NonEmpty(paths: seq<string>): (r: seq<string>)
    ensures forall i | 0 <= i < |r| :: r[i] != ""
    ensures forall p | p in paths && p != "" :: p in r
    ensures forall p | p in r :: p in paths
    ensures |r| <= |paths|
  {
    if |paths| == 0 then []
    else if paths[0] == "" then NonEmpty(paths[1..])
    else [paths[0]] + NonEmpty(paths[1..])
  }

  /** Filtering distributes over concatenation, and a single entry is kept
      exactly when it is non-empty; together these fix `.filter`'s order and
      multiplicity. */
  lemma {:induction false} NonEmptyAppend(a: seq<string>, b: seq<string>)
    ensures NonEmpty(a + b) == NonEmpty(a) + NonEmpty(b)
    ensures forall p :: NonEmpty([p]) == if p == "" then [] else [p]
    decreases |a|
  {
    if |a| == 0 {
      assert a + b == b;
    } else {
      assert (a + b)[1..] == a[1..] + b;
      NonEmptyAppend(a[1..], b);
    }
    forall p ensures NonEmpty([p]) == if p == "" then [] else [p] {
      assert [p][1..] == [];
    }
  }

  /** The six entries of the storage-path list before filtering; the fourth
      is empty unless APPDATA is set and non-empty. */
  function ListedPaths(host: Host): (r: seq<string>)
    ensures |r| == 6
    ensures forall i | 0 <= i < 6 && i != 3 :: r[i] != ""
    ensures r[3] == if Truthy(host.appData) then AppDataPath(host.appData.value) else ""
    ensures r[4] == RotationPath(host.home)
  {
    var home := host.home;
    [
      JoinAll(home, [".cursor", "config.json"]),
      JoinAll(home, ["Library", "Application Support", "cursor", "config.json"]),
      JoinAll(home, [".config", "cursor", "config.json"]),
      if Truthy(host.appData) then AppDataPath(host.appData.value) else "",
      RotationPath(home),
      JoinAll(home, [".cursor-tokens"])
    ]
  }

  /** `getTokenStoragePaths`: the configuration files searched for a token, in
      order, with the empty entry filtered out. */
  function StoragePaths(host: Host): (r: seq<string>)
    ensures forall i | 0 <= i < |r| :: r[i] != ""
  {
    NonEmpty(ListedPaths(host))
  }

  /** The searched paths are the listed ones in order; the APPDATA entry is
      present exactly when APPDATA is set and non-empty, and the rotation file
      is always among them. */
  lemma StoragePathsShape(host: Host)
    ensures var listed := ListedPaths(host);
      StoragePaths(host) == listed[..3] + (if Truthy(host.appData) then [listed[3]] else []) + listed[4..]
    ensures |StoragePaths(host)| == if Truthy(host.appData) then 6 else 5
    ensures Truthy(host.appData) ==> StoragePaths(host)[3] == AppDataPath(host.appData.value)
    ensures RotationPath(host.home) in StoragePaths(host)
  {
    var listed := ListedPaths(host);
    assert listed[..3] + [listed[3]] + listed[4..] == listed;
    NonEmptyKeepsPrefix(listed[..3], listed[3], listed[4..]);
    var r := StoragePaths(host);
    if Truthy(host.appData) {
      assert r[4] == listed[4];
    } else {
      assert r[3] == listed[4];
    }
  }

  lemma {:induction false} NonEmptyOfAllNonEmpty(paths: seq<string>)
    requires forall i | 0 <= i < |paths| :: paths[i] != ""
    ensures NonEmpty(paths) == paths
    decreases |paths|
  {
    if |paths| > 0 {
      NonEmptyOfAllNonEmpty(paths[1..]);
    }
  }

  /** Filtering a list whose only possibly empty entry is `mid` drops `mid`
      when it is empty and keeps everything else in place. */
  lemma {:induction false} NonEmptyKeepsPrefix(front: seq<string>, mid: string, back: seq<string>)
    requires forall i | 0 <= i < |front| :: front[i] != ""
    requires forall i | 0 <= i < |back| :: back[i] != ""
    ensures NonEmpty(front + [mid] + back) == front + (if mid == "" then [] else [mid]) + back
    decreases |front|
  {
    if |front| == 0 {
      assert front + [mid] + back == [mid] + back;
      assert ([mid] + back)[1..] == back;
      NonEmptyOfAllNonEmpty(back);
    } else {
      assert (front + [mid] + back)[1..] == front[1..] + [mid] + back;
      NonEmptyKeepsPrefix(front[1..], mid, back);
    }
  }

  /** The list `saveToken` writes: the new entry first, then the previous
      entries, cut to `RotationCount`. */
  function Push(entries: seq<TokenInfo>, info: TokenInfo): (r: seq<TokenInfo>)
    ensures 0 < |r| <= RotationCount
    ensures r[0] == info
    ensures r[1..] == entries[..if |entries| < RotationCount - 1 then |entries| else RotationCount - 1]
  {
    var l := [info] + entries;
    if |l| > RotationCount then l[..RotationCount] else l
  }

  /** The list `saveToken` reads: none when the file is missing, the entries
      when it holds a list, and a failure (`None`) when reading, parsing or
      prepending to it throws. */
  function ReadRotation(files: map<string, FileContent>, path: string): (r: Option<seq<TokenInfo>>)
    ensures r.None? <==> path in files && !files[path].TokenList?
    ensures path !in files ==> r == Some([])
    ensures path in files && files[path].TokenList? ==> r == Some(files[path].entries)
  {
    if path !in files then Some([])
    else match files[path]
      case TokenList(entries) => Some(entries)
      case _ => None
  }

  /** `saveToken` completes: the rotation file was read and can be written. */
  predicate SaveSucceeds(w: World, host: Host)
  {
    host.canWrite && ReadRotation(w.files, RotationPath(host.home)).Some?
  }

  /** `saveToken(token, source)` at time `now`. The secure store is written
      first, so it changes even when the rest fails; the rotation file and
      the active token change together or not at all. */
  function SaveToken(w: World, host: Host, now: int, token: string, source: string): (r: World)
    ensures r.secret == (if host.hasContext then Some(token) else w.secret)
    ensures SaveSucceeds(w, host) ==>
      var info := TokenInfo(token, now + TokenLifetime, source);
      var path := RotationPath(host.home);
      && r.active == Some(info)
      && r.files.Keys == w.files.Keys + {path}
      && r.files[path].TokenList?
      && r.files[path].entries == Push(ReadRotation(w.files, path).value, info)
      && (forall p | p in w.files && p != path :: r.files[p] == w.files[p])
    ensures !SaveSucceeds(w, host) ==> r.active == w.active && r.files == w.files
    ensures r.cursorToken == w.cursorToken && r.cursorApiToken == w.cursorApiToken && r.timer == w.timer
  {
    var w1 := if host.hasContext then w.(secret := Some(token)) else w;
    var path := RotationPath(host.home);
    match ReadRotation(w.files, path)
    case None => w1
    case Some(entries) =>
      if !host.canWrite then w1
      else
        var info := TokenInfo(token, now + TokenLifetime, source);
        w1.(files := w.files[path := TokenList(Push(entries, info))], active := Some(info))
  }

  /** Entries are ordered newest first: expiry times never increase along
      the list. */
  predicate NewestFirst(entries: seq<TokenInfo>)
  {
    forall i, j | 0 <= i < j < |entries| :: entries[j].expiresAt <= entries[i].expiresAt
  }

  /** The rotation file is absent, or a newest-first list of at most
      `RotationCount` entries none of which was saved after `now`. */
  predicate RotationInvariant(w: World, host: Host, now: int)
  {
    var path := RotationPath(host.home);
    path in w.files ==>
      && w.files[path].TokenList?
      && |w.files[path].entries| <= RotationCount
      && NewestFirst(w.files[path].entries)
      && forall i | 0 <= i < |w.files[path].entries| :: w.files[path].entries[i].expiresAt <= now + TokenLifetime
  }

  /** Saving at a time no earlier than the last save keeps the rotation file
      bounded and newest first. */
  lemma SavePreservesRotationInvariant(w: World, host: Host, now: int, later: int, token: string, source: string)
    requires RotationInvariant(w, host, now) && now <= later
    ensures RotationInvariant(SaveToken(w, host, later, token, source), host, later)
  {
    var path := RotationPath(host.home);
    var r := SaveToken(w, host, later, token, source);
    if SaveSucceeds(w, host) {
      var prev := ReadRotation(w.files, path).value;
      var info := TokenInfo(token, later + TokenLifetime, source);
      var l := r.files[path].entries;
      assert l == Push(prev, info);
      forall i | 1 <= i < |l| ensures l[i] == prev[i - 1] {
        assert l[i] == l[1..][i - 1];
      }
    }
  }

  /** A series of saves at non-decreasing times. */
  datatype Save = Save(token: string, source: string, at: int)

  function SaveAll(w: World, host: Host, saves: seq<Save>): World
    decreases |saves|
  {
    if |saves| == 0 then w
    else SaveAll(SaveToken(w, host, saves[0].at, saves[0].token, saves[0].source), host, saves[1..])
  }

  predicate Chronological(start: int, saves: seq<Save>)
  {
    forall i | 0 <= i < |saves| :: start <= saves[i].at
      && (i + 1 < |saves| ==> saves[i].at <= saves[i + 1].at)
  }

  /** After any number of saves made in time order, the rotation file holds at
      most three entries, newest first. */
  lemma {:induction false} RotationInvariantAfterSaves(w: World, host: Host, now: int, saves: seq<Save>)
    requires RotationInvariant(w, host, now) && Chronological(now, saves)
    ensures RotationInvariant(SaveAll(w, host, saves), host, if |saves| == 0 then now else saves[|saves| - 1].at)
    decreases |saves|
  {
    if |saves| > 0 {
      var s := saves[0];
      SavePreservesRotationInvariant(w, host, now, s.at, s.token, s.source);
      assert Chronological(s.at, saves[1..]) by {
        forall i | 0 <= i < |saves[1..]| ensures s.at <= saves[1..][i].at {
          ChronologicalMonotone(now, saves, 0, i + 1);
        }
      }
      RotationInvariantAfterSaves(SaveToken(w, host, s.at, s.token, s.source), host, s.at, saves[1..]);
    }
  }

  lemma {:induction false} ChronologicalMonotone(start: int, saves: seq<Save>, i: nat, j: nat)
    requires Chronological(start, saves) && i <= j < |saves|
    ensures saves[i].at <= saves[j].at
    decreases j - i
  {
    if i < j {
      ChronologicalMonotone(start, saves, i + 1, j);
    }
  }
}
